=== FILE: README.md ===
# Audio relay PWA: relay server, reconnecting listeners, service worker

A Dafny model of the parts of the audio-streaming progressive web app that carry state.
One browser sends raw PCM audio to a relay server, and the relay fans it out to the
other connected browsers. The model covers four things:

- **Relay server** (`server/index.js`), module `Relay`. The registry of open sockets
  is an insertion-ordered sequence without duplicates, like a JavaScript `Set`, plus
  the set of sockets whose `pinger` interval is running. Every handler (`open`,
  `message`, `close`, `error`, a pinger tick) is a pure step. It returns the next
  registry and the list of `(recipient, payload)` sends it produces. Each socket's
  `readyState` is owned by the transport, so it is a parameter of every step.
- **Shared reconnect logic** (`public/js/main.js` and
  `reference/receiver/receiver-client.tsx`), module `Clients`. This is the
  `reconnectWebSocket` counter, capped at `MAX_RECONNECT_ATTEMPTS = 5`. It has a
  single pending-timeout slot that holds a 2000 ms timer. Timers are abstract: they
  have an identity and a delay, and steps return the start and cancel operations.
- **Listener page** (`public/js/main.js`), module `Listener`. It covers audio start,
  the socket handlers installed by `connectWebSocket`, and the timer that re-runs
  `connectWebSocket`.
- **React receiver** (`reference/receiver/receiver-client.tsx`), module `Receiver`.
  It covers the connect effect, which is gated on `isMounted` and
  `isAudioInitialized`. It also covers the effect's cleanup, the socket handlers,
  and the retry that follows when the scheduled connect returns null.
- **Service worker** (`service-worker.js`), module `ServiceWorker`. Cache storage is
  a map from cache name to cache, and a cache is a map from URL to response. The
  `fetch` handler is modelled as a priority chain over abstract outcomes. The
  `activate` handler deletes every cache except `CACHE_NAME`. `install` caches
  `ASSETS_TO_CACHE` and then stores the offline page again.

`Wrappers` holds the `Option` type that every module uses.

Some parts of the system come from outside these files. In the model they are
parameters of the steps:
- socket ready states;
- whether `new WebSocket(...)` throws;
- whether an audio chunk decodes;
- the outcomes of the preload, the network and asset fetches;
- whether an HTTP request can be upgraded.

The relay has no liveness eviction. Its 30-second interval only sends a ping to its
own socket while that socket is OPEN. Nothing ever removes a client except `close`
and `error`. The only application-level heartbeat is the answer to a JSON
`{type:'ping'}` text frame with `{type:'pong'}` (server/index.js:49-52).

## Model

| member | source | states |
|---|---|---|
| `Relay.SizeIsCardinality` | server/index.js:13 | The count reported as `clients.size` is the number of distinct registered sockets: a registry without duplicates has as many entries as members. |
| `Relay.Add` | server/index.js:32 | `clients.add` makes the socket a member and keeps the others in their insertion order, the new socket going last; adding a present socket changes nothing and the set never holds a socket twice. |
| `Relay.Remove` | server/index.js:59 | `clients.delete` removes exactly that socket and keeps the others; deleting an absent socket leaves the registry identical; the size drops by one exactly when the socket was present. |
| `Relay.RemoveKeepsOrder` | server/index.js:59 | `clients.delete` of the socket at position k leaves the sockets before it and after it in their insertion order. |
| `Relay.RemoveAfterPrefix` | server/index.js:59 | Deleting a socket that none of the first entries is leaves those entries in place and deletes from the remainder. |
| `Relay.Fanout` | server/index.js:3-19 | The shared broadcast loop: every send carries the same payload, the recipients are exactly the OPEN members other than the excluded one, and nobody receives twice. |
| `Relay.BroadcastAudio` | server/index.js:3-9 | The frame goes unchanged to exactly the OPEN members that are not the sender; the sender never receives its own frame; one copy per recipient. |
| `Relay.BroadcastCount` | server/index.js:12-19 | Every OPEN member, and only those, receives one count message equal to the registry size. |
| `Relay.OnFetch` | server/index.js:23-28 | A request that cannot be upgraded gets status 400, and no request changes the registry; only upgradable requests are upgraded. |
| `Relay.OnOpen` | server/index.js:30-43 | After `open` the socket is registered with a running pinger, the size grows by one for a new socket, and every OPEN member, the new one included, receives the new size. |
| `Relay.OnMessage` | server/index.js:44-57 | Binary frames are only broadcast (to OPEN non-senders); a text frame never produces audio; a text frame whose parsed `type` is `ping` gets exactly one pong to its sender; any other text frame, malformed JSON included, sends nothing; the registry never changes. |
| `Relay.Disconnect` | server/index.js:58-70 | `close` and `error` remove the socket and its pinger; removing an absent socket leaves the registry unchanged; remaining OPEN members receive the post-removal size; the removed socket is never a recipient. |
| `Relay.OnPingTick` | server/index.js:38-42 | The pinger only pings its own socket, only while it has a pinger and is OPEN, and never changes the registry. |
| `Relay.Step` | server/index.js:29-71 | Every handler keeps the registry a set whose members are exactly those with a running pinger; messages and ticks never change membership; `open` adds, `close`/`error` remove. |
| `Relay.Run` | server/index.js:29-71 | Any history of events keeps the registry well-formed. |
| `Relay.RunTracksLive` | server/index.js:30-70 | From an empty server, a socket is registered exactly when its last lifecycle event was `open`. |
| `Relay.RunSizeCountsMembers` | server/index.js:13 | After any history of events the reported `clients.size` counts the registered sockets, each once. |
| `Relay.ErrorThenCloseRemovesOnce` | server/index.js:58-70 | An `error` followed by the `close` of the same socket deletes it once: the second handler leaves the registry as the first left it. |
| `Relay.OpenAppends` | server/index.js:30-43 | When every socket is OPEN, the `open` of a socket not yet registered appends it after the existing clients, in insertion order, and starts its pinger. |
| `Relay.TwoConnectedInOrder` | server/index.js:30-43 | Peers 1 and 2 connecting in that order leave the registry 1, 2, each with a pinger. |
| `Relay.ThreeConnectedInOrder` | server/index.js:30-43 | Peers 1, 2 and 3 connecting in that order leave the registry 1, 2, 3, each with a pinger. |
| `Relay.ThreePeersBroadcast` | server/index.js:3-35 | Peers 1, 2 and 3 connect in order; a frame from 1 reaches exactly 2 and 3, unchanged. |
| `Relay.CloseMiddlePeer` | server/index.js:58-63 | Closing the middle peer of three deletes only it, keeps the order of the others, and a frame from the first then reaches the last only. |
| `Relay.MiddleClosed` | server/index.js:58-60 | Closing peer 2 of the registry 1, 2, 3 leaves the registry 1, 3 and stops only peer 2's pinger. |
| `Relay.OneReachesThree` | server/index.js:3-9 | In the registry 1, 3 a frame from peer 1 reaches peer 3 only. |
| `Relay.ThreePeersAfterClose` | server/index.js:58-63 | After peer 2 closes the registry is 1 and 3, and a frame from 1 reaches 3 only. |
| `Clients.Reconnect` | public/js/main.js:75-89 | At the cap reconnect gives up and schedules nothing; below it the counter grows by exactly one, any earlier pending timeout is cancelled, and exactly one new 2000 ms timeout with a fresh identity becomes the pending one; the only timer it ever cancels is the earlier pending one; the cap is never exceeded. The receiver's copy (reference/receiver/receiver-client.tsx:112-129) is the same. |
| `Clients.Reset` | public/js/main.js:41 | A successful open sets the counter to 0 and leaves the pending slot alone. |
| `Clients.Fire` | public/js/main.js:84-88 | Only the pending timeout can fire; a cancelled one does nothing; after firing nothing is pending. |
| `Clients.ClearPending` | reference/receiver/receiver-client.tsx:28-30 | Clearing cancels the pending timeout, when there is one, and starts none. |
| `Clients.RepeatedReconnectsAreBounded` | public/js/main.js:76-81 | Without an intervening open, any number of reconnects schedules at most `5 - attempts` timeouts, one per counted attempt. |
| `Listener.Connect` | public/js/main.js:31-73 | A constructed socket changes nothing else; a throwing constructor shows "Failed to connect" and schedules no reconnect. |
| `Listener.OnInitAudio` | public/js/main.js:15-29 | Only a running audio context leads to a connection attempt; a failed `resume()` keeps the context but shows an error and does not connect. |
| `Listener.OnOpen` | public/js/main.js:36-42 | Open resets the counter to 0, hides the error and shows Connected. |
| `Listener.OnClose` | public/js/main.js:44-48 | Every close shows Disconnected and reconnects: at the cap an error and no timer, below it one more attempt and exactly one pending 2000 ms connect, replacing any earlier one. |
| `Listener.OnError` | public/js/main.js:50-52 | An error only shows a message: no timer, counter unchanged. |
| `Listener.OnMessage` | public/js/main.js:54-69 | Messages are ignored entirely while `audioContext` is null; otherwise a chunk is played, or an error shown when decoding fails. |
| `Listener.OnTimer` | public/js/main.js:88 | When the pending timeout fires it runs `connectWebSocket`: a socket is constructed exactly when the constructor returns, otherwise "Failed to connect" is shown; a timeout that is not the pending one (it was cancelled) constructs nothing. |
| `Listener.Step` | public/js/main.js:31-89 | Only a close can start a timer, it starts at most one, and it always starts one below the cap; an error never touches the counter; an open resets the counter, marks the page connected and clears the error; the pending timeout's firing constructs a socket exactly when the constructor succeeds; `initializeAudio` constructs exactly when the context runs and the constructor succeeds; only a message plays audio, and it plays exactly when the context exists and the chunk decodes. |
| `Listener.AttemptsNeverExceedCap` | public/js/main.js:11-12 | Whatever callbacks run, `reconnectAttempts` never exceeds `MAX_RECONNECT_ATTEMPTS`. |
| `Receiver.Connect` | reference/receiver/receiver-client.tsx:57-110 | A constructed socket becomes `wsRef.current` with its handlers attached; a throwing constructor sets "Failed to connect" and returns null. |
| `Receiver.Cleanup` | reference/receiver/receiver-client.tsx:27-32 | Cleanup clears the pending timeout and closes the current socket; as corrected, it also detaches that socket so nothing stays attached. |
| `Receiver.CleanupAsWritten` | reference/receiver/receiver-client.tsx:27-32 | Cleanup as written clears the timeout and closes the socket but leaves its handlers attached. |
| `Receiver.RunEffect` | reference/receiver/receiver-client.tsx:21-33 | The effect constructs a socket exactly when `isMounted` and `isAudioInitialized` both hold (and construction succeeds); the previous cleanup runs first; a throwing constructor behind the open gate sets the connect error, and otherwise the error text is kept. |
| `Receiver.OnInitAudio` | reference/receiver/receiver-client.tsx:35-55 | Only a running context sets `isAudioInitialized`; a socket is created only when that flag changes while mounted, and then the effect goes live and a socket is created exactly when the constructor succeeds; a running context clears the error unless that connect throws, which sets the connect error; failures set the initialisation error and leave the flag as it was. |
| `Receiver.OnClose` | reference/receiver/receiver-client.tsx:71-75 | A close sets disconnected, detaches the closed socket and reconnects: at the cap an error and no timer, below it one attempt and one timer. |
| `Receiver.OnError` | reference/receiver/receiver-client.tsx:77-80 | An error only sets the error text: it starts no timer, leaves the counter and the socket alone, and constructs and closes nothing. |
| `Receiver.OnOpen` | reference/receiver/receiver-client.tsx:64-69 | A successful open sets connected, clears the error and resets the counter to 0, leaving any pending timeout and the attached handlers alone. |
| `Receiver.OnUnmount` | reference/receiver/receiver-client.tsx:27-32 | Unmounting runs the live effect's cleanup and leaves the component gone with no counted attempt added; both cleanups cancel the pending 2000 ms timeout and start none; with the cleanup as written the handlers stay attached, and with the corrected one nothing is left running. |
| `Receiver.OnMessage` | reference/receiver/receiver-client.tsx:82-102 | Messages are skipped while the audio context is missing or audio is not initialised. |
| `Receiver.OnTimer` | reference/receiver/receiver-client.tsx:125-128 | Only the pending timeout runs. Its connect makes the new socket current and attached whenever construction succeeds; when the connect returns null, reconnect runs again under the same cap (one more attempt and timer below it, an error at it). |
| `Receiver.ConnectAgain` | reference/receiver/receiver-client.tsx:125-127 | The timeout body: a successful connect yields a current, attached socket and no timer; a null connect counts one more attempt and starts one timer below the cap, or sets the cap error at it. |
| `Receiver.Step` | reference/receiver/receiver-client.tsx:17-129 | For the cleanup as written and the corrected one alike: reachable states keep the counter within its cap and construct sockets only behind the open gate; the counter grows by one per timer started, except that an attached socket's open resets it to 0 and clears the error; an error starts no timer and leaves the counter alone; a mount behind an open gate, the first successful `initializeAudio` while mounted, and the pending timeout's firing construct a socket exactly when the constructor succeeds. Unmounting leaves nothing running only with the corrected cleanup; as written, the handlers stay attached. |
| `Receiver.OnComponent` | reference/receiver/receiver-client.tsx:17-33 | The React and timer callbacks keep the same invariants as `Step`, and only a pending timeout can start timers. A mount behind an open gate, and the first successful `initializeAudio` while mounted, construct a socket exactly when the constructor succeeds, and the pending timeout's firing with a successful constructor attaches the new socket. |
| `Receiver.OnSocket` | reference/receiver/receiver-client.tsx:64-102 | A socket callback runs only while that socket is attached and never constructs a socket; an open resets the counter and clears the error; an error starts no timer and leaves the counter alone. |
| `Receiver.StartIsValid` | reference/receiver/receiver-client.tsx:6-15 | The initial state (no socket, no timeout, zero attempts) is well-formed. |
| `Receiver.RetriesAreBounded` | reference/receiver/receiver-client.tsx:112-128 | For the code as written and as corrected: between successful opens, the scheduled retries, those after closes and those after null connects alike, number at most `5 - attempts`. |
| `Receiver.NoConnectBeforeGate` | reference/receiver/receiver-client.tsx:21-25 | For the code as written and as corrected: if any socket was constructed, `isMounted` and `isAudioInitialized` are both true. |
| `Receiver.GateStaysOpen` | reference/receiver/receiver-client.tsx:17-19 | With either cleanup, once both gate flags are true they stay true. |
| `Receiver.QuiescentIsFinal` | reference/receiver/receiver-client.tsx:27-32 | With either cleanup, once the component is gone with nothing attached and nothing pending, no callback does anything. |
| `Receiver.UnmountStopsReconnecting` | reference/receiver/receiver-client.tsx:27-32 | With the corrected cleanup, after unmounting no reconnect is scheduled and no socket constructed, whatever events follow. |
| `Receiver.CleanupAsWrittenReconnectsAfterUnmount` | reference/receiver/receiver-client.tsx:27-32 | With the cleanup as written, a connected receiver is unmounted and its socket's close is delivered. This schedules a reconnect, and when that timeout fires a new socket is constructed for the unmounted component. With the corrected cleanup no socket is constructed. |
| `ServiceWorker.OpenCache` | service-worker.js:63 | Opening `CACHE_NAME` creates it empty when absent and changes no other cache. |
| `ServiceWorker.Match` | service-worker.js:71 | A cache match finds the entry for the request URL, and never for a non-GET request. |
| `ServiceWorker.Fallback` | service-worker.js:68-87 | After a failure: the cached match if any; else, for a navigation, the cached offline page if present; otherwise the original error is rethrown. |
| `ServiceWorker.HandleFetch` | service-worker.js:48-90 | A preload response is returned with neither network nor cache consulted; a network response is returned and stored under the request URL if and only if the method is GET; failures fall back to the cache chain. |
| `ServiceWorker.FirstOfFour` | service-worker.js:51-87 | The reference chain picks the first present of four candidates. |
| `ServiceWorker.FetchFollowsPriority` | service-worker.js:51-87 | The handler's answer is the first available of preload, network, cached match and offline page, and it rejects with the original error exactly when none is available. |
| `ServiceWorker.AddAll` | service-worker.js:12 | `cache.addAll` is all-or-nothing. It succeeds exactly when every asset fetch succeeds with a 2xx status other than 206 Partial Content. It then stores each asset's response and keeps the other entries. |
| `ServiceWorker.OfflineWrap` | service-worker.js:14-17 | As intended, the offline page is re-stored with its own body and an HTML content type. |
| `ServiceWorker.OfflineWrapAsWritten` | service-worker.js:14-17 | As written, the re-stored offline page's body is the text "[object Response]". |
| `ServiceWorker.InstallWith` | service-worker.js:7-19 | Install succeeds exactly when every asset is fetched; then every asset is cached under `CACHE_NAME` and the offline page re-stored; other caches are untouched. |
| `ServiceWorker.Install` | service-worker.js:7-19 | Install stores every entry of `ASSETS_TO_CACHE` in the `CACHE_NAME` cache, the offline page with its own body as HTML, and changes no other cache. |
| `ServiceWorker.InstallAsWritten` | service-worker.js:14-17 | Install as written stores "[object Response]" as the offline page's body. |
| `ServiceWorker.InstallAsWrittenLosesOfflinePage` | service-worker.js:14-17 | With every asset served as the same HTML page, installing as written replaces the offline page's body; installing as intended keeps it. |
| `ServiceWorker.Activate` | service-worker.js:33-40 | After activation the cache names are exactly the previous ones filtered to `CACHE_NAME`, whose contents are kept; `CACHE_NAME` is never deleted. |
| `ServiceWorker.ActivateTwice` | service-worker.js:33-40 | Activation is idempotent and keeps `CACHE_NAME` with its contents. |

## Left out

- Liveness eviction is not modelled because the code has none. The 30 s pinger only pings, and the 30 000 ms period is not modelled because there is no clock.
- The network transport is not modelled: Bun's `server.upgrade`, WebSocket framing, and the transport-level pong. Sockets are opaque handles, and a send is an entry in the output list.
- `JSON.parse` and `JSON.stringify` are abstracted. A text frame is either malformed or parsed with an optional string `type`, and the count and pong messages are payload constructors.
- Console logging, `ws.binaryType`, and the DOM text of the status and error elements are left out. Errors are an enumeration of the messages shown.
- Audio decoding and playback are left out: `Float32Array`, `AudioContext`, buffers, and the 44100 Hz rate. A message is only "playable or not".
- Service-worker registration in `public/js/main.js` (lines 1-7) is left out, because it is a platform call.
- Also left out as platform calls: `navigationPreload.enable`, `skipWaiting`, `clients.claim`.
- The un-awaited `cache.put` promise is modelled as if it has completed. Failures of `caches.open`, `put` and `match` are not modelled.
- Cache matching is by URL only, plus the rule that a non-GET request never matches. `Vary`, query strings and opaque responses are not modelled.
- `OFFLINE_URL` (`offline.html`) is taken as resolved to `/offline.html`, the same key as the entry in `ASSETS_TO_CACHE`.
- React rendering, StrictMode double effects, the mount gate in `reference/receiver/page.tsx`, and the sender page `reference/sender/page.tsx` are left out, because they are UI.
- `vite.config.js` is left out because it is build configuration.
- Concurrency between handlers is not modelled. Every event is one serialised step.
- `Relay.OnOpen`: a second `open` of the same socket would leak its first interval timer in the source. Bun never delivers that, and the model keeps one pinger per socket.
- Timer slot: the source keeps the handle of a timeout that has already fired, and `clearTimeout` on it is a no-op. The model empties the slot when the timer fires. The two behave the same.
- `Receiver.Step`: the clause "unmounting leaves nothing running" is proved only for the corrected cleanup (`Receiver.Cleanup`). With the cleanup as written the closed socket keeps its handlers, which is the first finding below. The retry bound and the connect gate are proved for both.
- `Receiver.OnComponent`: setState calls after unmount are ignored by React. The model still updates those fields, which no later step reads. The socket handlers read `isAudioInitialized` from the render that created them. That value is always true for sockets the effect creates, so the model reads the current state.

## Findings

| source | as written | input that shows it | evidently intended | confidence | as-written member | corrected member |
|---|---|---|---|---|---|---|
| reference/receiver/receiver-client.tsx:27-32 | The effect cleanup closes `wsRef.current` but leaves its `onclose` installed. The close event then calls `reconnectWebSocket` after unmount, which schedules a new 2000 ms connect. That connect then constructs a socket for the unmounted component. | A receiver connected on socket 0 with no attempts counted is unmounted. Socket 0's close event follows, and then the 2000 ms timeout fires. | Unmounting stops all reconnect activity. | not executed; high | `Receiver.CleanupAsWritten`, run by `Receiver.Step` when `asWritten` is set, shown by `Receiver.CleanupAsWrittenReconnectsAfterUnmount` | `Receiver.Cleanup`, with `Receiver.UnmountStopsReconnecting` |
| service-worker.js:14-17 | `new Response(await cache.match(OFFLINE_URL), …)` passes a Response where a body is expected. The body becomes the string "[object Response]", and that overwrites the cached offline page. | Every asset is served with status 200, and the offline page body is `<h1>You are offline</h1>`. | The offline page is stored again with its own body and an HTML content type. | not executed; high | `ServiceWorker.InstallAsWritten`, shown by `ServiceWorker.InstallAsWrittenLosesOfflinePage` | `ServiceWorker.Install` (via `ServiceWorker.OfflineWrap`) |

=== FILE: clients.dfy ===
/** What the two listening clients, public/js/main.js and
    reference/receiver/receiver-client.tsx, have in common: the outcomes of audio
    initialisation, the error messages, and the bounded reconnect counter both
    implement as `reconnectWebSocket`:
    an attempt counter capped at `MAX_RECONNECT_ATTEMPTS`, and one slot holding the
    pending `setTimeout` that will call `connectWebSocket` again. Timers are abstract:
    a timer has an identity and a delay, and starting or cancelling one is an
    operation the step returns. */
module Clients {
  import opened Wrappers

  /** `MAX_RECONNECT_ATTEMPTS`. */
  const MaxAttempts: nat := 5

  /** The delay passed to `setTimeout` before the next `connectWebSocket`. */
  const RetryDelayMs: nat := 2000

  datatype Timer = Timer(id: nat, delayMs: nat)

  datatype TimerOp = StartTimer(timer: Timer) | CancelTimer(id: nat)

  /** How `initializeAudio` ends: the `AudioContext` constructor throws, `resume()`
      rejects after the context was stored, or the context is running. */
  datatype AudioStart = ContextFailed | ResumeFailed | Running

  /** The messages both clients show or store as their error text. */
  datatype Notice =
    | AudioInitError
    | SocketError
    | ConnectFailed
    | MaxAttemptsReached
    | AudioProcessingError

  /** The counter, the pending timeout (if one has not fired yet), and the identity the
      next timer will get. */
  datatype Retry = Retry(attempts: nat, pending: Option<Timer>, nextTimer: nat)

  /** The counter after one `reconnectWebSocket`, whether it gave up at the cap, and the
      timer operations it performed, in order. */
  datatype Attempt = Attempt(retry: Retry, gaveUp: bool, ops: seq<TimerOp>)

  const Initial: Retry := Retry(0, None, 0)

  /** The counter is within the cap and the pending timer's identity was handed out. */
  predicate Valid(r: Retry) {
    r.attempts <= MaxAttempts && (r.pending.Some? ==> r.pending.value.id < r.nextTimer)
  }

  /** The number of timers an operation list starts. */
  function Starts(ops: seq<TimerOp>): nat {
    if |ops| == 0 then 0
    else (if ops[0].StartTimer? then 1 else 0) + Starts(ops[1..])
  }

  lemma {:induction false} StartsAppend(a: seq<TimerOp>, b: seq<TimerOp>)
    ensures Starts(a + b) == Starts(a) + Starts(b)
    decreases |a|
  {
    if |a| > 0 {
      assert (a + b)[0] == a[0] && (a + b)[1..] == a[1..] + b;
      StartsAppend(a[1..], b);
    } else {
      assert a + b == b;
    }
  }

  /** `reconnectWebSocket()`: at the cap, give up and schedule nothing; below it, count
      one more attempt, cancel the earlier pending timeout if any, and start exactly one
      new 2000 ms timeout, which becomes the pending one. */
  function Reconnect(r: Retry): (a: Attempt)
    ensures a.gaveUp <==> r.attempts >= MaxAttempts
    ensures a.gaveUp ==> a.retry == r && a.ops == []
    ensures !a.gaveUp ==> a.retry.attempts == r.attempts + 1
    ensures !a.gaveUp ==> a.retry.pending.Some? && a.retry.pending.value.delayMs == RetryDelayMs
    ensures !a.gaveUp ==> |a.ops| > 0 && a.ops[|a.ops| - 1] == StartTimer(a.retry.pending.value)
    ensures !a.gaveUp && r.pending.Some? ==> CancelTimer(r.pending.value.id) in a.ops
    ensures forall op :: op in a.ops && op.CancelTimer? ==> r.pending.Some? && op.id == r.pending.value.id
    ensures Starts(a.ops) == if a.gaveUp then 0 else 1
    ensures Valid(r) ==> Valid(a.retry)
    ensures Valid(r) && r.pending.Some? && !a.gaveUp ==> a.retry.pending.value.id != r.pending.value.id
  {
    if r.attempts >= MaxAttempts then
      Attempt(r, true, [])
    else
      var cancel := if r.pending.Some? then [CancelTimer(r.pending.value.id)] else [];
      var timer := Timer(r.nextTimer, RetryDelayMs);
      StartsAppend(cancel, [StartTimer(timer)]);
      Attempt(Retry(r.attempts + 1, Some(timer), r.nextTimer + 1), false, cancel + [StartTimer(timer)])
  }

  /** The socket opened: `reconnectAttempts = 0`. The pending slot is not touched. */
  function Reset(r: Retry): (r': Retry)
    ensures r'.attempts == 0
    ensures r'.pending == r.pending && r'.nextTimer == r.nextTimer
    ensures Valid(r) ==> Valid(r')
  {
    r.(attempts := 0)
  }

  /** Timer `id` fires: it runs only when it is the pending one (a cancelled timer never
      fires), and afterwards nothing is pending. */
  function Fire(r: Retry, id: nat): (f: (Retry, bool))
    ensures f.1 <==> r.pending.Some? && r.pending.value.id == id
    ensures f.1 ==> f.0 == r.(pending := None)
    ensures !f.1 ==> f.0 == r
    ensures Valid(r) ==> Valid(f.0)
  {
    if r.pending.Some? && r.pending.value.id == id then (r.(pending := None), true) else (r, false)
  }

  /** `clearTimeout` of the pending timeout, when there is one. */
  function ClearPending(r: Retry): (c: (Retry, seq<TimerOp>))
    ensures c.0.pending.None?
    ensures c.0.attempts == r.attempts
    ensures r.pending.Some? ==> c.1 == [CancelTimer(r.pending.value.id)]
    ensures r.pending.None? ==> c.1 == []
    ensures Starts(c.1) == 0
    ensures Valid(r) ==> Valid(c.0)
  {
    if r.pending.Some? then (r.(pending := None), [CancelTimer(r.pending.value.id)]) else (r, [])
  }

  /** `n` consecutive calls of `reconnectWebSocket`, with no open in between. */
  function Repeat(r: Retry, n: nat): (a: Attempt)
    decreases n
  {
    if n == 0 then Attempt(r, false, [])
    else
      var first := Reconnect(r);
      var rest := Repeat(first.retry, n - 1);
      Attempt(rest.retry, first.gaveUp || rest.gaveUp, first.ops + rest.ops)
  }

  /** Without an intervening open, repeated reconnects schedule at most
      `MaxAttempts - attempts` timeouts, one per counted attempt. */
  lemma {:induction false} RepeatedReconnectsAreBounded(r: Retry, n: nat)
    requires Valid(r)
    ensures Starts(Repeat(r, n).ops) <= MaxAttempts - r.attempts
    ensures Starts(Repeat(r, n).ops) == Repeat(r, n).retry.attempts - r.attempts
    ensures Valid(Repeat(r, n).retry)
    decreases n
  {
    if n > 0 {
      var first := Reconnect(r);
      RepeatedReconnectsAreBounded(first.retry, n - 1);
      StartsAppend(first.ops, Repeat(first.retry, n - 1).ops);
    }
  }
}

=== FILE: listener.dfy ===
/** The listener page of public/js/main.js: audio initialisation, the WebSocket
    handlers installed by `connectWebSocket`, and `reconnectWebSocket`. The page's
    globals (`audioContext`, the status line, the error box, the reconnect counter and
    timeout) form one immutable state, and each browser callback is a step returning
    the next state with the effects it caused: timer operations, whether a new socket
    was constructed, and whether an audio chunk was played. */
module Listener {
  import opened Wrappers
  import opened Clients

  /** The `#status` element: untouched yet, or set by `onopen` / `onclose`. */
  datatype Status = Unknown | Connected | Disconnected

  /** `audio` is `audioContext !== null`; `error` is the shown `#error` message (`None`
      when hidden). */
  datatype Page = Page(audio: bool, status: Status, error: Option<Notice>, retry: Retry)

  /** The page after one callback; `timers` are the timer operations performed, `constructed`
      whether a `WebSocket` was constructed, `played` whether a chunk was scheduled for
      playback. */
  datatype Reaction = Reaction(page: Page, timers: seq<TimerOp>, constructed: bool, played: bool)

  /** The callbacks the browser runs. `constructs` says whether `new WebSocket(…)`
      returns (rather than throws) in the `connectWebSocket` the callback reaches;
      `playable` whether decoding the chunk succeeds. */
  datatype Event =
    | InitAudio(start: AudioStart, constructs: bool)
    | SocketOpened
    | SocketClosed
    | SocketErrored
    | SocketMessage(playable: bool)
    | TimerFired(id: nat, constructs: bool)

  const Start: Page := Page(false, Unknown, None, Clients.Initial)

  /** `connectWebSocket()`: a constructed socket gets its handlers; a throwing
      constructor only shows an error, and nothing is rescheduled from this path. */
  function Connect(p: Page, constructs: bool): (r: Reaction)
    ensures r.constructed <==> constructs
    ensures r.timers == [] && !r.played
    ensures r.page.retry == p.retry && r.page.audio == p.audio && r.page.status == p.status
    ensures !constructs ==> r.page.error == Some(ConnectFailed)
    ensures constructs ==> r.page == p
  {
    if constructs then Reaction(p, [], true, false)
    else Reaction(p.(error := Some(ConnectFailed)), [], false, false)
  }

  /** `initializeAudio()`: only a running context leads to `connectWebSocket`; a failed
      `resume()` leaves the context stored but shows an error and does not connect. */
  function OnInitAudio(p: Page, start: AudioStart, constructs: bool): (r: Reaction)
    ensures r.constructed <==> start.Running? && constructs
    ensures r.timers == [] && !r.played
    ensures r.page.retry == p.retry
    ensures r.page.audio == (p.audio || !start.ContextFailed?)
    ensures !start.Running? ==> r.page.error == Some(AudioInitError)
  {
    match start
    case ContextFailed => Reaction(p.(error := Some(AudioInitError)), [], false, false)
    case ResumeFailed => Reaction(p.(audio := true, error := Some(AudioInitError)), [], false, false)
    case Running => Connect(p.(audio := true), constructs)
  }

  /** `onopen`: connected, the error box hidden, the counter back to 0. */
  function OnOpen(p: Page): (r: Reaction)
    ensures r.page.retry.attempts == 0
    ensures r.page.error.None? && r.page.status == Connected
    ensures r.page.retry.pending == p.retry.pending
    ensures r.timers == [] && !r.constructed && !r.played
    ensures Valid(p.retry) ==> Valid(r.page.retry)
  {
    Reaction(p.(status := Connected, error := None, retry := Reset(p.retry)), [], false, false)
  }

  /** `onclose`: disconnected, then `reconnectWebSocket()`: at the cap an error and no
      timer; below it one more attempt and exactly one new pending 2000 ms connect. */
  function OnClose(p: Page): (r: Reaction)
    ensures r.page.status == Disconnected
    ensures !r.constructed && !r.played
    ensures p.retry.attempts >= MaxAttempts ==>
      r.page.error == Some(MaxAttemptsReached) && r.timers == [] && r.page.retry == p.retry
    ensures p.retry.attempts < MaxAttempts ==>
      && r.page.retry.attempts == p.retry.attempts + 1
      && Starts(r.timers) == 1
      && r.page.retry.pending.Some?
      && r.page.retry.pending.value.delayMs == RetryDelayMs
      && r.timers[|r.timers| - 1] == StartTimer(r.page.retry.pending.value)
    ensures p.retry.attempts < MaxAttempts && p.retry.pending.Some? ==>
      CancelTimer(p.retry.pending.value.id) in r.timers
    ensures Valid(p.retry) ==> Valid(r.page.retry)
  {
    var a := Reconnect(p.retry);
    var error := if a.gaveUp then Some(MaxAttemptsReached) else p.error;
    Reaction(p.(status := Disconnected, retry := a.retry, error := error), a.ops, false, false)
  }

  /** `onerror`: only shows a message; it does not reconnect. */
  function OnError(p: Page): (r: Reaction)
    ensures r.page.error == Some(SocketError)
    ensures r.page.retry == p.retry && r.page.status == p.status
    ensures r.timers == [] && !r.constructed && !r.played
  {
    Reaction(p.(error := Some(SocketError)), [], false, false)
  }

  /** `onmessage`: ignored while `audioContext` is null, otherwise played, or an error
      shown when decoding fails. */
  function OnMessage(p: Page, playable: bool): (r: Reaction)
    ensures !p.audio ==> r == Reaction(p, [], false, false)
    ensures r.played <==> p.audio && playable
    ensures p.audio && !playable ==> r.page.error == Some(AudioProcessingError)
    ensures r.page.retry == p.retry && r.timers == [] && !r.constructed
  {
    if !p.audio then Reaction(p, [], false, false)
    else if playable then Reaction(p, [], false, true)
    else Reaction(p.(error := Some(AudioProcessingError)), [], false, false)
  }

  /** The pending `setTimeout(connectWebSocket, 2000)` fires. A timer that is no longer
      pending (it was cancelled) does nothing. */
  function OnTimer(p: Page, id: nat, constructs: bool): (r: Reaction)
    ensures r.constructed ==> constructs && p.retry.pending.Some? && p.retry.pending.value.id == id
    ensures p.retry.pending.Some? && p.retry.pending.value.id == id ==>
      (r.constructed <==> constructs) && (!constructs ==> r.page.error == Some(ConnectFailed))
    ensures r.timers == [] && !r.played
    ensures r.page.retry.attempts == p.retry.attempts
    ensures p.retry.pending.Some? && p.retry.pending.value.id == id ==> r.page.retry.pending.None?
    ensures Valid(p.retry) ==> Valid(r.page.retry)
  {
    var f := Fire(p.retry, id);
    if f.1 then Connect(p.(retry := f.0), constructs) else Reaction(p, [], false, false)
  }

  /** Dispatch of one callback. Only a close can start a timer, and it starts at most one. */
  function Step(p: Page, e: Event): (r: Reaction)
    ensures Valid(p.retry) ==> Valid(r.page.retry)
    ensures Starts(r.timers) <= 1
    ensures Starts(r.timers) == 1 ==> e.SocketClosed? && p.retry.attempts < MaxAttempts
    ensures e.SocketClosed? && p.retry.attempts < MaxAttempts ==> Starts(r.timers) == 1
    ensures e.SocketErrored? ==> r.page.retry == p.retry && r.timers == []
    ensures e.SocketOpened? ==> r.page.retry.attempts == 0 && r.page.status == Connected && r.page.error.None?
    ensures e.TimerFired? && p.retry.pending.Some? && p.retry.pending.value.id == e.id ==>
      (r.constructed <==> e.constructs)
    ensures e.InitAudio? ==> (r.constructed <==> e.start.Running? && e.constructs)
    ensures e.SocketMessage? ==> (r.played <==> p.audio && e.playable) && !r.constructed && r.page.retry == p.retry
    ensures r.played ==> e.SocketMessage?
  {
    match e
    case InitAudio(start, constructs) => OnInitAudio(p, start, constructs)
    case SocketOpened => OnOpen(p)
    case SocketClosed => OnClose(p)
    case SocketErrored => OnError(p)
    case SocketMessage(playable) => OnMessage(p, playable)
    case TimerFired(id, constructs) => OnTimer(p, id, constructs)
  }

  /** The page after a whole history of callbacks. */
  function Run(p: Page, evs: seq<Event>): Page
    decreases |evs|
  {
    if |evs| == 0 then p else Run(Step(p, evs[0]).page, evs[1..])
  }

  /** `reconnectAttempts` never exceeds `MAX_RECONNECT_ATTEMPTS`, whatever happens. */
  lemma {:induction false} AttemptsNeverExceedCap(p: Page, evs: seq<Event>)
    requires Valid(p.retry)
    ensures Run(p, evs).retry.attempts <= MaxAttempts
    ensures Valid(Run(p, evs).retry)
    decreases |evs|
  {
    if |evs| > 0 {
      AttemptsNeverExceedCap(Step(p, evs[0]).page, evs[1..]);
    }
  }
}

=== FILE: receiver.dfy ===
/** The React receiver of reference/receiver/receiver-client.tsx: the connect effect
    gated on `isMounted` and `isAudioInitialized`, its cleanup, the socket handlers
    installed by `connectWebSocket`, and `reconnectWebSocket` with its retry when the
    scheduled connect returns null.

    State and refs of the component form one immutable value. Sockets have identities;
    a socket's handlers stay installed ("attached") until its close event has run,
    since a WebSocket closes once. Each callback is a step returning the next state
    and its effects: timer operations, the socket constructed, the socket closed, and
    whether an audio chunk was played. */
module Receiver {
  import opened Wrappers
  import opened Clients

  /** `alive`: the component is still mounted in the React tree. `mounted` and
      `audioReady` are the `isMounted` and `isAudioInitialized` states; `context` is
      `audioContextRef.current !== null`; `socket` is `wsRef.current`; `effectLive`
      says the connect effect has run and its cleanup is registered. */
  datatype Receiver = Receiver(
    alive: bool,
    mounted: bool,
    audioReady: bool,
    context: bool,
    connected: bool,
    error: Option<Notice>,
    retry: Retry,
    socket: Option<nat>,
    attached: set<nat>,
    nextSocket: nat,
    effectLive: bool)

  datatype Reaction = Reaction(
    state: Receiver,
    timers: seq<TimerOp>,
    created: Option<nat>,
    closing: Option<nat>,
    played: bool)

  /** The callbacks React and the browser run. `constructs` says whether
      `new WebSocket(…)` returns (rather than throws) in the `connectWebSocket` the
      callback reaches; `playable` whether decoding the chunk succeeds. */
  datatype Event =
    | Mount(constructs: bool)
    | InitAudio(start: AudioStart, constructs: bool)
    | Unmount
    | SocketOpened(id: nat)
    | SocketClosed(id: nat)
    | SocketErrored(id: nat)
    | SocketMessage(id: nat, playable: bool)
    | TimerFired(id: nat, constructs: bool)

  const Start: Receiver := Receiver(true, false, false, false, false, None, Clients.Initial, None, {}, 0, false)

  function Current(s: Receiver): set<nat> {
    if s.socket.Some? then {s.socket.value} else {}
  }

  /** Facts every reachable state keeps, whichever cleanup runs: the counter is within
      its cap, socket identities were handed out, the effect is live only behind its
      gate, and nothing runs (a socket, an attached handler, a pending timeout) before
      the gate has opened. */
  predicate Sound(s: Receiver) {
    && Clients.Valid(s.retry)
    && (s.socket.Some? ==> s.socket.value < s.nextSocket)
    && (s.effectLive ==> s.alive && s.mounted && s.audioReady)
    && (s.socket.Some? || s.retry.pending.Some? || s.attached != {} ==> s.mounted && s.audioReady)
  }

  /** What the corrected cleanup adds: only the current socket can still have its
      handlers, and while no effect is live, or a reconnect timeout is pending, no
      socket is attached. */
  predicate Valid(s: Receiver) {
    && Sound(s)
    && s.attached <= Current(s)
    && (!s.effectLive ==> s.attached == {} && s.retry.pending.None?)
    && (s.retry.pending.Some? ==> s.attached == {})
  }

  /** Nothing left running: the component is gone, no handler is attached and no
      timeout is pending. */
  predicate Quiescent(s: Receiver) {
    !s.alive && !s.effectLive && s.attached == {} && s.retry.pending.None?
  }

  function Idle(s: Receiver): (r: Reaction)
    ensures r.state == s && r.timers == [] && r.created.None? && r.closing.None? && !r.played
  {
    Reaction(s, [], None, None, false)
  }

  /** `connectWebSocket()`: a constructed socket becomes `wsRef.current` with its
      handlers attached; a throwing constructor sets the error and returns null. */
  function Connect(s: Receiver, constructs: bool): (r: Reaction)
    ensures r.created.Some? <==> constructs
    ensures constructs ==> r.state.socket == r.created
    ensures constructs ==> r.state.attached == s.attached + {r.created.value}
    ensures !constructs ==> r.state == s.(error := Some(ConnectFailed))
    ensures r.timers == [] && r.closing.None? && !r.played
    ensures r.state.retry == s.retry
    ensures (s.socket.Some? ==> s.socket.value < s.nextSocket) ==>
      (r.state.socket.Some? ==> r.state.socket.value < r.state.nextSocket)
  {
    if constructs then
      var id := s.nextSocket;
      Reaction(s.(socket := Some(id), attached := s.attached + {id}, nextSocket := id + 1), [], Some(id), None, false)
    else
      Reaction(s.(error := Some(ConnectFailed)), [], None, None, false)
  }

  /** The effect's cleanup: clear the pending timeout, close `wsRef.current`, and detach
      that socket's handlers so that its close event no longer reaches
      `reconnectWebSocket`. */
  function Cleanup(s: Receiver): (r: Reaction)
    ensures r.state.retry.pending.None? && r.state.retry.attempts == s.retry.attempts
    ensures s.retry.pending.Some? ==> r.timers == [CancelTimer(s.retry.pending.value.id)]
    ensures s.retry.pending.None? ==> r.timers == []
    ensures r.closing == s.socket
    ensures r.state.attached == s.attached - Current(s)
    ensures r.created.None? && !r.played
    ensures Valid(s) ==> r.state.attached == {}
  {
    var c := ClearPending(s.retry);
    Reaction(s.(retry := c.0, attached := s.attached - Current(s)), c.1, None, s.socket, false)
  }

  /** The cleanup as the source writes it: the socket is closed but keeps its
      `onclose`, so the close that follows still calls `reconnectWebSocket`. */
  function CleanupAsWritten(s: Receiver): (r: Reaction)
    ensures r.state.retry.pending.None? && r.state.retry.attempts == s.retry.attempts
    ensures s.retry.pending.Some? ==> r.timers == [CancelTimer(s.retry.pending.value.id)]
    ensures s.retry.pending.None? ==> r.timers == []
    ensures r.closing == s.socket
    ensures r.state.attached == s.attached
    ensures r.created.None? && !r.played
    ensures Sound(s) ==> Sound(r.state)
  {
    var c := ClearPending(s.retry);
    Reaction(s.(retry := c.0), c.1, None, s.socket, false)
  }

  /** The cleanup registered by the effect, corrected or as written. */
  function CleanupWith(s: Receiver, asWritten: bool): Reaction {
    if asWritten then CleanupAsWritten(s) else Cleanup(s)
  }

  /** A change of `[isMounted, isAudioInitialized]`: the previous run's cleanup, then
      the effect, which connects only when both are true. */
  function RunEffect(s: Receiver, constructs: bool, asWritten: bool): (r: Reaction)
    ensures r.created.Some? <==> s.mounted && s.audioReady && constructs
    ensures r.state.effectLive <==> s.mounted && s.audioReady
    ensures s.effectLive ==> r.closing == s.socket
    ensures r.state.retry.attempts == s.retry.attempts
    ensures !asWritten && Valid(s) ==> r.state.retry.pending.None?
    ensures Starts(r.timers) == 0
    ensures r.state.mounted == s.mounted && r.state.audioReady == s.audioReady && r.state.alive == s.alive
    ensures r.state.error == if s.mounted && s.audioReady && !constructs then Some(ConnectFailed) else s.error
    ensures Sound(s) && s.alive ==> Sound(r.state)
    ensures !asWritten && Valid(s) && s.alive ==> Valid(r.state)
  {
    var c := if s.effectLive then CleanupWith(s, asWritten) else Idle(s);
    if s.mounted && s.audioReady then
      var k := Connect(c.state.(effectLive := true), constructs);
      Reaction(k.state, c.timers, k.created, c.closing, false)
    else
      Reaction(c.state.(effectLive := false), c.timers, None, c.closing, false)
  }

  /** `initializeAudio()`: on success the context is stored, the error cleared and
      `isAudioInitialized` set, which re-runs the effect when it changed. */
  function OnInitAudio(s: Receiver, start: AudioStart, constructs: bool, asWritten: bool): (r: Reaction)
    ensures !start.Running? ==> r.created.None? && r.timers == [] && r.state.retry == s.retry
    ensures !start.Running? ==> r.state.error == Some(AudioInitError) && r.state.audioReady == s.audioReady
    ensures start.Running? ==> r.state.audioReady && r.state.context
    ensures r.created.Some? ==> start.Running? && s.mounted && !s.audioReady
    ensures start.Running? && s.mounted && !s.audioReady ==> (r.created.Some? <==> constructs) && r.state.effectLive
    ensures start.Running? && !(s.mounted && !s.audioReady && !constructs) ==> r.state.error.None?
    ensures start.Running? && s.mounted && !s.audioReady && !constructs ==> r.state.error == Some(ConnectFailed)
    ensures Starts(r.timers) == 0 && r.state.retry.attempts == s.retry.attempts
    ensures r.state.mounted == s.mounted && (s.audioReady ==> r.state.audioReady) && r.state.alive == s.alive
    ensures Sound(s) && s.alive ==> Sound(r.state)
    ensures !asWritten && Valid(s) && s.alive ==> Valid(r.state)
  {
    match start
    case ContextFailed => Idle(s.(error := Some(AudioInitError)))
    case ResumeFailed => Idle(s.(context := true, error := Some(AudioInitError)))
    case Running =>
      var s' := s.(context := true, error := None);
      if s.audioReady then Idle(s') else RunEffect(s'.(audioReady := true), constructs, asWritten)
  }

  /** `ws.onopen`: connected, the error cleared, the counter back to 0; a pending
      timeout is left as it is. */
  function OnOpen(s: Receiver): (r: Reaction)
    ensures r.state.connected && r.state.error.None?
    ensures r.state.retry.attempts == 0 && r.state.retry.pending == s.retry.pending
    ensures r.timers == [] && r.created.None? && r.closing.None? && !r.played
    ensures r.state.attached == s.attached
    ensures r.state.mounted == s.mounted && r.state.audioReady == s.audioReady
    ensures Sound(s) ==> Sound(r.state)
    ensures Valid(s) ==> Valid(r.state)
  {
    Idle(s.(connected := true, error := None, retry := Reset(s.retry)))
  }

  /** `ws.onerror`: only the error text changes; an error does not reconnect. */
  function OnError(s: Receiver): (r: Reaction)
    ensures r.state == s.(error := Some(SocketError))
    ensures r.timers == [] && r.created.None? && r.closing.None? && !r.played
    ensures Sound(s) ==> Sound(r.state)
    ensures Valid(s) ==> Valid(r.state)
  {
    Idle(s.(error := Some(SocketError)))
  }

  /** `ws.onclose`: disconnected, then `reconnectWebSocket()`. */
  function OnClose(s: Receiver, id: nat): (r: Reaction)
    ensures !r.state.connected && id !in r.state.attached
    ensures s.retry.attempts >= MaxAttempts ==>
      r.state.error == Some(MaxAttemptsReached) && r.timers == [] && r.state.retry == s.retry
    ensures s.retry.attempts < MaxAttempts ==>
      r.state.retry.attempts == s.retry.attempts + 1 && Starts(r.timers) == 1 && r.state.retry.pending.Some?
    ensures r.created.None? && r.closing.None? && !r.played
    ensures r.state.retry.attempts == s.retry.attempts + Starts(r.timers)
    ensures r.state.alive == s.alive && r.state.mounted == s.mounted && r.state.audioReady == s.audioReady
    ensures Sound(s) && id in s.attached ==> Sound(r.state)
    ensures Valid(s) && id in s.attached ==> Valid(r.state)
  {
    var a := Reconnect(s.retry);
    var error := if a.gaveUp then Some(MaxAttemptsReached) else s.error;
    Reaction(s.(connected := false, attached := s.attached - {id}, retry := a.retry, error := error), a.ops, None, None, false)
  }

  /** `ws.onmessage`: skipped unless the audio context exists and audio is initialised. */
  function OnMessage(s: Receiver, playable: bool): (r: Reaction)
    ensures !s.context || !s.audioReady ==> r == Idle(s)
    ensures r.played <==> s.context && s.audioReady && playable
    ensures s.context && s.audioReady && !playable ==> r.state.error == Some(AudioProcessingError)
    ensures r.state.retry == s.retry && r.timers == [] && r.created.None?
    ensures r.state == s.(error := r.state.error)
  {
    if !s.context || !s.audioReady then Idle(s)
    else if playable then Reaction(s, [], None, None, true)
    else Idle(s.(error := Some(AudioProcessingError)))
  }

  /** The body of the scheduled timeout: `connectWebSocket()`, and when it returns
      null, `reconnectWebSocket()` again. */
  function ConnectAgain(s: Receiver, constructs: bool): (r: Reaction)
    ensures constructs ==>
      && r.created.Some? && r.state.socket == r.created && r.created.value in r.state.attached
      && r.timers == [] && r.state.retry == s.retry
    ensures !constructs ==> r.created.None?
    ensures !constructs && s.retry.attempts < MaxAttempts ==>
      Starts(r.timers) == 1 && r.state.retry.attempts == s.retry.attempts + 1
    ensures !constructs && s.retry.attempts >= MaxAttempts ==>
      r.timers == [] && r.state.error == Some(MaxAttemptsReached)
    ensures r.state.retry.attempts == s.retry.attempts + Starts(r.timers)
    ensures r.closing.None? && !r.played
    ensures r.state.alive == s.alive && r.state.mounted == s.mounted && r.state.audioReady == s.audioReady
    ensures Sound(s) && s.mounted && s.audioReady ==> Sound(r.state)
    ensures Valid(s) && s.effectLive && s.attached == {} && s.retry.pending.None? ==> Valid(r.state)
  {
    var k := Connect(s, constructs);
    if constructs then k
    else
      var a := Reconnect(k.state.retry);
      var error := if a.gaveUp then Some(MaxAttemptsReached) else k.state.error;
      Reaction(k.state.(retry := a.retry, error := error), a.ops, None, None, false)
  }

  /** Timer `id` fires: only the pending timeout runs its body; a cancelled one never
      fires. */
  function OnTimer(s: Receiver, id: nat, constructs: bool): (r: Reaction)
    ensures !(s.retry.pending.Some? && s.retry.pending.value.id == id) ==> r == Idle(s)
    ensures r.created.Some? ==> constructs && s.retry.pending.Some?
    ensures s.retry.pending.Some? && s.retry.pending.value.id == id && constructs ==>
      && r.created.Some? && r.state.socket == r.created && r.created.value in r.state.attached
      && r.timers == [] && r.state.retry.pending.None? && r.state.retry.attempts == s.retry.attempts
    ensures s.retry.pending.Some? && s.retry.pending.value.id == id && !constructs && s.retry.attempts < MaxAttempts ==>
      Starts(r.timers) == 1 && r.state.retry.attempts == s.retry.attempts + 1
    ensures s.retry.pending.Some? && s.retry.pending.value.id == id && !constructs && s.retry.attempts >= MaxAttempts ==>
      r.timers == [] && r.state.error == Some(MaxAttemptsReached)
    ensures r.state.retry.attempts == s.retry.attempts + Starts(r.timers)
    ensures r.closing.None? && !r.played
    ensures r.state.alive == s.alive && r.state.mounted == s.mounted && r.state.audioReady == s.audioReady
    ensures Sound(s) ==> Sound(r.state)
    ensures Valid(s) ==> Valid(r.state)
  {
    var f := Fire(s.retry, id);
    if !f.1 then Idle(s)
    else
      var fired := s.(retry := f.0);
      assert fired.retry.attempts == s.retry.attempts && fired.retry.pending.None?;
      assert Sound(s) ==> s.mounted && s.audioReady && Sound(fired);
      assert Valid(s) ==> fired.effectLive && fired.attached == {} && Valid(fired);
      ConnectAgain(fired, constructs)
  }

  /** The component leaves the tree: React runs the cleanup of the live effect,
      corrected or as written, and ignores everything addressed to it afterwards. */
  function OnUnmount(s: Receiver, asWritten: bool): (r: Reaction)
    ensures !r.state.alive && !r.state.effectLive
    ensures Starts(r.timers) == 0 && r.state.retry.attempts == s.retry.attempts
    ensures r.created.None? && !r.played
    ensures s.effectLive ==> r.closing == s.socket
    ensures s.effectLive ==> r.state.retry.pending.None? && r.timers == CleanupWith(s, asWritten).timers
    ensures s.effectLive && s.retry.pending.Some? ==> r.timers == [CancelTimer(s.retry.pending.value.id)]
    ensures asWritten ==> r.state.attached == s.attached
    ensures r.state.mounted == s.mounted && r.state.audioReady == s.audioReady
    ensures Sound(s) ==> Sound(r.state)
    ensures !asWritten && Valid(s) ==> Valid(r.state) && Quiescent(r.state)
  {
    var c := if s.effectLive then CleanupWith(s, asWritten) else Idle(s);
    Reaction(c.state.(alive := false, effectLive := false), c.timers, None, c.closing, false)
  }

  /** The callbacks that come from React or from a timer rather than from a socket. */
  predicate FromComponent(e: Event) {
    e.Mount? || e.InitAudio? || e.Unmount? || e.TimerFired?
  }

  /** Dispatch of a React or timer callback. React ignores `Mount`, `InitAudio` and
      `Unmount` once the component is gone. */
  function OnComponent(s: Receiver, e: Event, asWritten: bool): (r: Reaction)
    requires FromComponent(e)
    ensures Sound(s) ==> Sound(r.state)
    ensures !asWritten && Valid(s) ==> Valid(r.state)
    ensures Sound(s) && r.created.Some? ==> r.state.mounted && r.state.audioReady
    ensures !asWritten && Valid(s) && r.created.Some? ==> r.state.alive
    ensures r.state.retry.attempts == s.retry.attempts + Starts(r.timers)
    ensures !asWritten && Valid(s) && e.Unmount? ==> Quiescent(r.state)
    ensures asWritten && e.Unmount? ==> !r.state.alive && r.state.attached == s.attached
    ensures s.mounted && s.audioReady ==> r.state.mounted && r.state.audioReady
    ensures Starts(r.timers) > 0 ==> e.TimerFired? && s.retry.pending.Some? && s.retry.pending.value.id == e.id
    ensures e.Mount? && s.alive && !s.mounted && s.audioReady ==> (r.created.Some? <==> e.constructs)
    ensures e.InitAudio? && s.alive && s.mounted && !s.audioReady && e.start.Running? ==> (r.created.Some? <==> e.constructs)
    ensures e.TimerFired? && s.retry.pending.Some? && s.retry.pending.value.id == e.id && e.constructs ==>
      r.created.Some? && r.state.socket == r.created
  {
    match e
    case Mount(constructs) =>
      if !s.alive || s.mounted then Idle(s) else RunEffect(s.(mounted := true), constructs, asWritten)
    case InitAudio(start, constructs) =>
      if !s.alive then Idle(s) else OnInitAudio(s, start, constructs, asWritten)
    case Unmount =>
      if !s.alive then Idle(s) else OnUnmount(s, asWritten)
    case TimerFired(id, constructs) =>
      OnTimer(s, id, constructs)
  }

  /** Dispatch of a socket callback: a socket's handlers run only while they are
      attached, and no socket callback constructs a socket. */
  function OnSocket(s: Receiver, e: Event): (r: Reaction)
    requires !FromComponent(e)
    ensures Sound(s) ==> Sound(r.state)
    ensures Valid(s) ==> Valid(r.state)
    ensures r.created.None?
    ensures !e.SocketOpened? ==> r.state.retry.attempts == s.retry.attempts + Starts(r.timers)
    ensures e.SocketOpened? ==> Starts(r.timers) == 0
    ensures e.SocketOpened? && e.id in s.attached ==>
      && r.state.retry.attempts == 0 && r.state.error.None? && r.state.connected
      && r.state.retry.pending == s.retry.pending
    ensures e.id !in s.attached ==> r == Idle(s)
    ensures e.SocketErrored? ==> r.timers == [] && r.state.retry == s.retry
    ensures r.state.mounted == s.mounted && r.state.audioReady == s.audioReady
  {
    if e.id !in s.attached then Idle(s)
    else
      match e
      case SocketOpened(_) => OnOpen(s)
      case SocketClosed(id) => OnClose(s, id)
      case SocketErrored(_) => OnError(s)
      case SocketMessage(_, playable) => OnMessage(s, playable)
  }

  /** Dispatch of one callback, with the cleanup as the source writes it
      (`asWritten`) or as corrected. */
  function Step(s: Receiver, e: Event, asWritten: bool): (r: Reaction)
    ensures Sound(s) ==> Sound(r.state)
    ensures !asWritten && Valid(s) ==> Valid(r.state)
    ensures Sound(s) && r.created.Some? ==> r.state.mounted && r.state.audioReady
    ensures !asWritten && Valid(s) && r.created.Some? ==> r.state.alive
    ensures !e.SocketOpened? ==> r.state.retry.attempts == s.retry.attempts + Starts(r.timers)
    ensures e.SocketOpened? ==> Starts(r.timers) == 0
    ensures e.SocketOpened? && e.id in s.attached ==>
      && r.state.retry.attempts == 0 && r.state.error.None? && r.state.connected
      && r.state.retry.pending == s.retry.pending
    ensures e.SocketOpened? && e.id !in s.attached ==> r == Idle(s)
    ensures !asWritten && Valid(s) && e.Unmount? ==> Quiescent(r.state)
    ensures asWritten && e.Unmount? ==> !r.state.alive && r.state.attached == s.attached
    ensures s.mounted && s.audioReady ==> r.state.mounted && r.state.audioReady
    ensures e.SocketErrored? ==> r.timers == [] && r.state.retry == s.retry
    ensures e.Mount? && s.alive && !s.mounted && s.audioReady ==> (r.created.Some? <==> e.constructs)
    ensures e.InitAudio? && s.alive && s.mounted && !s.audioReady && e.start.Running? ==> (r.created.Some? <==> e.constructs)
    ensures e.TimerFired? && s.retry.pending.Some? && s.retry.pending.value.id == e.id && e.constructs ==>
      r.created.Some? && r.state.socket == r.created
  {
    if FromComponent(e) then OnComponent(s, e, asWritten) else OnSocket(s, e)
  }

  /** The state after a history of callbacks, with every timer operation and every
      socket constructed along the way. */
  datatype Trace = Trace(state: Receiver, timers: seq<TimerOp>, created: seq<nat>)

  function Run(s: Receiver, evs: seq<Event>, asWritten: bool): Trace
    decreases |evs|
  {
    if |evs| == 0 then Trace(s, [], [])
    else
      var r := Step(s, evs[0], asWritten);
      var rest := Run(r.state, evs[1..], asWritten);
      Trace(rest.state, r.timers + rest.timers, (if r.created.Some? then [r.created.value] else []) + rest.created)
  }

  lemma {:induction false} StartIsValid()
    ensures Valid(Start)
  {
  }

  /** Between two successful opens, the scheduled retries, those after a close and
      those after a connect that returned null alike, number at most
      `MAX_RECONNECT_ATTEMPTS` minus the attempts already counted, with either
      cleanup. */
  lemma {:induction false} RetriesAreBounded(s: Receiver, evs: seq<Event>, asWritten: bool)
    requires Sound(s)
    requires forall i :: 0 <= i < |evs| ==> !evs[i].SocketOpened?
    ensures Starts(Run(s, evs, asWritten).timers) == Run(s, evs, asWritten).state.retry.attempts - s.retry.attempts
    ensures Starts(Run(s, evs, asWritten).timers) <= MaxAttempts - s.retry.attempts
    ensures Sound(Run(s, evs, asWritten).state)
    decreases |evs|
  {
    if |evs| > 0 {
      var r := Step(s, evs[0], asWritten);
      RetriesAreBounded(r.state, evs[1..], asWritten);
      StartsAppend(r.timers, Run(r.state, evs[1..], asWritten).timers);
    }
  }

  /** No socket is ever constructed before both `isMounted` and
      `isAudioInitialized` are true, with either cleanup. */
  lemma {:induction false} NoConnectBeforeGate(s: Receiver, evs: seq<Event>, asWritten: bool)
    requires Sound(s)
    requires |Run(s, evs, asWritten).created| > 0
    ensures Run(s, evs, asWritten).state.mounted && Run(s, evs, asWritten).state.audioReady
    decreases |evs|
  {
    var r := Step(s, evs[0], asWritten);
    if |Run(r.state, evs[1..], asWritten).created| > 0 {
      NoConnectBeforeGate(r.state, evs[1..], asWritten);
    } else {
      assert r.created.Some?;
      GateStaysOpen(r.state, evs[1..], asWritten);
    }
  }

  /** Once open, the gate never closes again. */
  lemma {:induction false} GateStaysOpen(s: Receiver, evs: seq<Event>, asWritten: bool)
    requires s.mounted && s.audioReady
    ensures Run(s, evs, asWritten).state.mounted && Run(s, evs, asWritten).state.audioReady
    decreases |evs|
  {
    if |evs| > 0 {
      var r := Step(s, evs[0], asWritten);
      GateStaysOpen(r.state, evs[1..], asWritten);
      assert Run(s, evs, asWritten).state == Run(r.state, evs[1..], asWritten).state;
    }
  }

  /** Once quiescent, every callback leaves the component as it is and does nothing. */
  lemma {:induction false} QuiescentIsFinal(s: Receiver, evs: seq<Event>, asWritten: bool)
    requires Quiescent(s)
    ensures Run(s, evs, asWritten) == Trace(s, [], [])
    decreases |evs|
  {
    if |evs| > 0 {
      assert Step(s, evs[0], asWritten) == Idle(s);
      QuiescentIsFinal(s, evs[1..], asWritten);
    }
  }

  /** With the corrected cleanup, after unmounting, whatever the sockets and timers
      still do, the component schedules no reconnect and constructs no socket. */
  lemma {:induction false} UnmountStopsReconnecting(s: Receiver, evs: seq<Event>)
    requires Valid(s)
    ensures Run(Step(s, Unmount, false).state, evs, false).timers == []
    ensures Run(Step(s, Unmount, false).state, evs, false).created == []
  {
    QuiescentIsFinal(Step(s, Unmount, false).state, evs, false);
  }

  /** A receiver connected on socket 0, with no reconnect attempt counted. */
  const Listening: Receiver := Receiver(true, true, true, true, true, None, Clients.Initial, Some(0), {0}, 1, true)

  /** With the cleanup as written, unmounting a connected receiver closes socket 0 but
      leaves its handlers attached; the close event that follows schedules a 2000 ms
      reconnect, and when that timeout fires a new socket is constructed although the
      component is gone. With the corrected cleanup none of this happens. */
  lemma CleanupAsWrittenReconnectsAfterUnmount()
    ensures Valid(Listening)
    ensures Step(Listening, Unmount, true).closing == Some(0)
    ensures Starts(Step(Step(Listening, Unmount, true).state, SocketClosed(0), true).timers) == 1
    ensures Run(Listening, [Unmount, SocketClosed(0), TimerFired(0, true)], true).created == [1]
    ensures !Run(Listening, [Unmount, SocketClosed(0), TimerFired(0, true)], true).state.alive
    ensures Run(Listening, [Unmount, SocketClosed(0), TimerFired(0, true)], false).created == []
  {
    var evs := [Unmount, SocketClosed(0), TimerFired(0, true)];
    assert evs[1..] == [SocketClosed(0), TimerFired(0, true)] && evs[1..][1..] == [TimerFired(0, true)];
  }
}

=== FILE: relay.dfy ===
/** The relay server of server/index.js as a pure event-step machine.

    The server keeps one piece of state, the set `clients` of open WebSocket
    handles (a JavaScript `Set`, so without duplicates and iterated in insertion
    order), and every handle carries an interval timer `pinger`. Each handler
    (`open`, `message`, `close`, `error`, the pinger's tick) is a step that returns
    the next registry together with the list of frames it sends. A socket's
    `readyState` belongs to the transport, not to the server, so it is a parameter
    of every step. */
module Relay {
  import opened Wrappers

  /** Opaque identity of one WebSocket peer. */
  type Handle = nat

  /** The four WebSocket ready states; only `Open` sockets are written to by a broadcast. */
  datatype ReadyState = Connecting | Open | Closing | Closed

  /** The outcome of `JSON.parse` on a text frame: `Malformed` when parsing throws
      (a parsed `null` also throws, on `.type`, and lands in the same `catch`);
      otherwise the `type` property when it is a string. */
  datatype Json = Malformed | Parsed(typ: Option<string>)

  /** An inbound frame, told apart only by its wire kind (`data instanceof ArrayBuffer`). */
  datatype Frame = Binary(data: seq<bv8>) | Text(json: Json)

  /** What the server writes to a socket: an audio chunk, the JSON `{type:'count'}` and
      `{type:'pong'}` messages, or a transport-level ping. */
  datatype Payload = Audio(data: seq<bv8>) | Count(count: nat) | Pong | Ping

  datatype Send = Send(to: Handle, payload: Payload)

  /** `clients` in insertion order, and the handles whose `pinger` interval is running. */
  datatype Registry = Registry(clients: seq<Handle>, pingers: set<Handle>)

  /** The registry after one handler, with the sends it produced, in order. */
  datatype Transition = Transition(next: Registry, sends: seq<Send>)

  datatype Event =
    | SocketOpened(ws: Handle)
    | SocketMessage(ws: Handle, frame: Frame)
    | SocketClosed(ws: Handle)
    | SocketErrored(ws: Handle)
    | PingerTick(ws: Handle)

  /** Answer of the HTTP `fetch` hook: the request was upgraded, or refused. */
  datatype FetchReply = Upgraded | Refused(status: nat, body: string)

  const Empty: Registry := Registry([], {})

  predicate Distinct(s: seq<Handle>) {
    forall i, j :: 0 <= i < j < |s| ==> s[i] != s[j]
  }

  function Members(s: seq<Handle>): set<Handle> {
    set h | h in s
  }

  /** The registry is a set (no handle twice) and exactly its members have a live pinger. */
  predicate Valid(r: Registry) {
    Distinct(r.clients) && r.pingers == Members(r.clients)
  }

  /** `clients.size`. */
  function Size(r: Registry): nat {
    |r.clients|
  }

  function Recipients(sends: seq<Send>): set<Handle> {
    set i | 0 <= i < |sends| :: sends[i].to
  }

  predicate AllCarry(sends: seq<Send>, p: Payload) {
    forall i :: 0 <= i < |sends| ==> sends[i].payload == p
  }

  predicate OnePerRecipient(sends: seq<Send>) {
    forall i, j :: 0 <= i < j < |sends| ==> sends[i].to != sends[j].to
  }

  predicate IsPing(j: Json) {
    j == Parsed(Some("ping"))
  }

  /** A registry without duplicates holds as many handles as it has members. */
  lemma {:induction false} SizeIsCardinality(s: seq<Handle>)
    requires Distinct(s)
    ensures |Members(s)| == |s|
  {
    if |s| > 0 {
      SizeIsCardinality(s[1..]);
      assert Members(s) == {s[0]} + Members(s[1..]);
      assert s[0] !in Members(s[1..]);
    }
  }

  /** `clients.add(h)`: a no-op when `h` is already present, else appended. */
  function Add(s: seq<Handle>, h: Handle): (r: seq<Handle>)
    ensures Members(r) == Members(s) + {h}
    ensures Distinct(s) ==> Distinct(r)
    ensures |r| == if h in s then |s| else |s| + 1
    ensures r[..|s|] == s
  {
    if h in s then s else s + [h]
  }

  /** `clients.delete(h)`: deleting an absent handle changes nothing; the order of the
      others is kept (`RemoveKeepsOrder`). */
  function Remove(s: seq<Handle>, h: Handle): (r: seq<Handle>)
    ensures Members(r) == Members(s) - {h}
    ensures h !in s ==> r == s
    ensures Distinct(s) ==> Distinct(r) && |r| == if h in s then |s| - 1 else |s|
  {
    if |s| == 0 then []
    else
      var rest := Remove(s[1..], h);
      assert Members(s) == {s[0]} + Members(s[1..]);
      if s[0] == h then rest
      else
        var r := [s[0]] + rest;
        assert Members(r) == {s[0]} + Members(rest);
        assert Distinct(s) ==> Distinct(r) by {
          if Distinct(s) {
            forall i, j | 0 <= i < j < |r| ensures r[i] != r[j] {
              if i == 0 {
                assert r[j] in Members(rest);
                assert s[0] !in Members(s[1..]);
              }
            }
          }
        }
        r
  }

  /** Deleting a handle that the prefix `a` lacks keeps `a` and deletes from the rest. */
  lemma {:induction false} RemoveAfterPrefix(a: seq<Handle>, b: seq<Handle>, h: Handle)
    requires h !in a
    ensures Remove(a + b, h) == a + Remove(b, h)
    decreases |a|
  {
    if a != [] {
      assert (a + b)[0] == a[0] && (a + b)[1..] == a[1..] + b;
      assert a[0] != h;
      assert Remove(a + b, h) == [a[0]] + Remove(a[1..] + b, h);
      RemoveAfterPrefix(a[1..], b, h);
      assert a == [a[0]] + a[1..];
    } else {
      assert a + b == b;
    }
  }

  /** Deleting the handle at position `k` of a registry leaves the handles before and
      after it, in their order. */
  lemma {:induction false} RemoveKeepsOrder(s: seq<Handle>, h: Handle, k: nat)
    requires Distinct(s) && k < |s| && s[k] == h
    ensures Remove(s, h) == s[..k] + s[k + 1..]
  {
    var a, b := s[..k], s[k..];
    assert h !in a by {
      forall i | 0 <= i < |a| ensures a[i] != h {
        assert a[i] == s[i];
      }
    }
    assert h !in b[1..] by {
      forall i | 0 <= i < |b[1..]| ensures b[1..][i] != h {
        assert b[1..][i] == s[k + 1 + i];
      }
    }
    assert s == a + b;
    RemoveAfterPrefix(a, b, h);
    assert Remove(b, h) == Remove(b[1..], h) == b[1..];
    assert b[1..] == s[k + 1..];
  }

  /** One send of `p` to each client, in registry order, that is `Open` and is not `skip`. */
  function Fanout(clients: seq<Handle>, ready: Handle -> ReadyState, skip: Option<Handle>, p: Payload): (out: seq<Send>)
    ensures AllCarry(out, p)
    ensures Recipients(out) == set h | h in clients && Some(h) != skip && ready(h) == Open
    ensures |out| <= |clients|
    ensures Distinct(clients) ==> OnePerRecipient(out)
  {
    if |clients| == 0 then []
    else
      var rest := Fanout(clients[1..], ready, skip, p);
      assert forall h :: h in clients <==> h == clients[0] || h in clients[1..];
      if Some(clients[0]) != skip && ready(clients[0]) == Open then
        assert Recipients([Send(clients[0], p)] + rest) == {clients[0]} + Recipients(rest) by {
          var out := [Send(clients[0], p)] + rest;
          forall h | h in Recipients(rest) ensures h in Recipients(out) {
            var i :| 0 <= i < |rest| && rest[i].to == h;
            assert out[i + 1].to == h;
          }
          assert out[0].to == clients[0];
        }
        [Send(clients[0], p)] + rest
      else
        rest
  }

  /** `broadcastAudio(data, sender)`: the frame, unchanged, to every OPEN member except the sender. */
  function BroadcastAudio(clients: seq<Handle>, ready: Handle -> ReadyState, data: seq<bv8>, sender: Handle): (out: seq<Send>)
    ensures AllCarry(out, Audio(data))
    ensures Recipients(out) == set h | h in clients && h != sender && ready(h) == Open
    ensures sender !in Recipients(out)
    ensures Distinct(clients) ==> OnePerRecipient(out)
  {
    Fanout(clients, ready, Some(sender), Audio(data))
  }

  /** `broadcastCount()`: the current size to every OPEN member, the sender included. */
  function BroadcastCount(r: Registry, ready: Handle -> ReadyState): (out: seq<Send>)
    ensures AllCarry(out, Count(Size(r)))
    ensures Recipients(out) == set h | h in r.clients && ready(h) == Open
    ensures Distinct(r.clients) ==> OnePerRecipient(out)
  {
    Fanout(r.clients, ready, None, Count(Size(r)))
  }

  /** The `fetch` hook: an upgradable request becomes a socket (whose `open` event comes
      later); any other request gets a 400 and leaves the registry alone. */
  function OnFetch(r: Registry, upgradable: bool): (t: (Registry, FetchReply))
    ensures t.0 == r
    ensures t.1.Upgraded? <==> upgradable
    ensures !upgradable ==> t.1.status == 400
  {
    if upgradable then (r, Upgraded) else (r, Refused(400, "Upgrade failed"))
  }

  /** `open(ws)`: add the client, broadcast the new size, start its pinger. */
  function OnOpen(r: Registry, ready: Handle -> ReadyState, ws: Handle): (t: Transition)
    requires Valid(r)
    ensures Valid(t.next)
    ensures Members(t.next.clients) == Members(r.clients) + {ws}
    ensures ws in t.next.pingers
    ensures Size(t.next) == if ws in r.clients then Size(r) else Size(r) + 1
    ensures AllCarry(t.sends, Count(Size(t.next)))
    ensures Recipients(t.sends) == set h | h in t.next.clients && ready(h) == Open
    ensures ready(ws) == Open ==> ws in Recipients(t.sends)
    ensures OnePerRecipient(t.sends)
  {
    var next := Registry(Add(r.clients, ws), r.pingers + {ws});
    Transition(next, BroadcastCount(next, ready))
  }

  /** `message(ws, data)`: binary frames are broadcast and never parsed; a text frame
      parsing to `type === 'ping'` is answered with one pong to `ws`; anything else is
      dropped. The registry never changes. */
  function OnMessage(r: Registry, ready: Handle -> ReadyState, ws: Handle, frame: Frame): (t: Transition)
    ensures t.next == r
    ensures frame.Binary? ==> AllCarry(t.sends, Audio(frame.data))
    ensures frame.Binary? ==> Recipients(t.sends) == set h | h in r.clients && h != ws && ready(h) == Open
    ensures frame.Text? ==> forall i :: 0 <= i < |t.sends| ==> !t.sends[i].payload.Audio?
    ensures frame.Text? ==> (t.sends == [Send(ws, Pong)] <==> IsPing(frame.json))
    ensures frame.Text? && !IsPing(frame.json) ==> t.sends == []
  {
    match frame
    case Binary(data) => Transition(r, BroadcastAudio(r.clients, ready, data, ws))
    case Text(json) => Transition(r, if IsPing(json) then [Send(ws, Pong)] else [])
  }

  /** `close(ws)` and `error(ws, e)` share this body: delete the client, clear its pinger,
      broadcast the size that remains. */
  function Disconnect(r: Registry, ready: Handle -> ReadyState, ws: Handle): (t: Transition)
    requires Valid(r)
    ensures Valid(t.next)
    ensures Members(t.next.clients) == Members(r.clients) - {ws}
    ensures ws !in t.next.pingers
    ensures Size(t.next) == if ws in r.clients then Size(r) - 1 else Size(r)
    ensures ws !in r.clients ==> t.next == r
    ensures AllCarry(t.sends, Count(Size(t.next)))
    ensures Recipients(t.sends) == set h | h in t.next.clients && ready(h) == Open
    ensures ws !in Recipients(t.sends)
    ensures OnePerRecipient(t.sends)
  {
    var next := Registry(Remove(r.clients, ws), r.pingers - {ws});
    Transition(next, BroadcastCount(next, ready))
  }

  /** One tick of `ws.pinger`: a ping to `ws` itself while it is OPEN. A cleared interval
      no longer ticks, so a tick for a handle without a pinger does nothing. Nothing is
      ever evicted here. */
  function OnPingTick(r: Registry, ready: Handle -> ReadyState, ws: Handle): (t: Transition)
    ensures t.next == r
    ensures forall i :: 0 <= i < |t.sends| ==> t.sends[i] == Send(ws, Ping)
    ensures |t.sends| == (if ws in r.pingers && ready(ws) == Open then 1 else 0)
  {
    Transition(r, if ws in r.pingers && ready(ws) == Open then [Send(ws, Ping)] else [])
  }

  /** Dispatch of one event to its handler. */
  function Step(r: Registry, ready: Handle -> ReadyState, e: Event): (t: Transition)
    requires Valid(r)
    ensures Valid(t.next)
    ensures e.SocketMessage? || e.PingerTick? ==> t.next == r
    ensures e.SocketOpened? ==> e.ws in t.next.clients
    ensures e.SocketClosed? || e.SocketErrored? ==> e.ws !in t.next.clients && e.ws !in t.next.pingers
  {
    match e
    case SocketOpened(ws) => OnOpen(r, ready, ws)
    case SocketMessage(ws, frame) => OnMessage(r, ready, ws, frame)
    case SocketClosed(ws) => Disconnect(r, ready, ws)
    case SocketErrored(ws) => Disconnect(r, ready, ws)
    case PingerTick(ws) => OnPingTick(r, ready, ws)
  }

  /** The registry after a whole history of events, starting from `r`. */
  function Run(r: Registry, ready: Handle -> ReadyState, evs: seq<Event>): (r': Registry)
    requires Valid(r)
    ensures Valid(r')
    decreases |evs|
  {
    if |evs| == 0 then r
    else Step(Run(r, ready, evs[..|evs| - 1]), ready, evs[|evs| - 1]).next
  }

  /** Reference definition of membership from the history alone: `h` is connected when
      its last lifecycle event (`open`, `close` or `error`) is an `open`. */
  predicate Live(evs: seq<Event>, h: Handle)
    decreases |evs|
  {
    if |evs| == 0 then false
    else
      var e := evs[|evs| - 1];
      if (e.SocketOpened? || e.SocketClosed? || e.SocketErrored?) && e.ws == h then e.SocketOpened?
      else Live(evs[..|evs| - 1], h)
  }

  /** Starting from an empty server, the registry holds exactly the handles whose last
      lifecycle event was `open`. */
  lemma {:induction false} RunTracksLive(ready: Handle -> ReadyState, evs: seq<Event>, h: Handle)
    ensures h in Run(Empty, ready, evs).clients <==> Live(evs, h)
    decreases |evs|
  {
    if |evs| > 0 {
      var before := evs[..|evs| - 1];
      var e := evs[|evs| - 1];
      var prev := Run(Empty, ready, before);
      RunTracksLive(ready, before, h);
      var r := Run(Empty, ready, evs);
      assert r == Step(prev, ready, e).next;
      assert h in r.clients <==> h in Members(r.clients);
      assert h in prev.clients <==> h in Members(prev.clients);
    }
  }

  /** After any history the reported size counts the connected handles, each once. */
  lemma {:induction false} RunSizeCountsMembers(r: Registry, ready: Handle -> ReadyState, evs: seq<Event>)
    requires Valid(r)
    ensures Size(Run(r, ready, evs)) == |Members(Run(r, ready, evs).clients)|
  {
    SizeIsCardinality(Run(r, ready, evs).clients);
  }

  /** An `error` followed by the `close` of the same socket deletes it once: the second
      handler leaves the registry as the first left it and reports the same count. */
  lemma ErrorThenCloseRemovesOnce(r: Registry, ready: Handle -> ReadyState, ws: Handle)
    requires Valid(r)
    ensures Step(Step(r, ready, SocketErrored(ws)).next, ready, SocketClosed(ws)).next == Step(r, ready, SocketErrored(ws)).next
    ensures Size(Step(r, ready, SocketErrored(ws)).next) == if ws in r.clients then Size(r) - 1 else Size(r)
  {
  }

  /** Every socket OPEN, the transport state of the scenario below. */
  function AllOpen(h: Handle): ReadyState {
    Open
  }

  /** The registry after the `open` of peer `ws` on an all-OPEN transport. */
  function Opened(r: Registry, ws: Handle): (o: Registry)
    requires Valid(r)
    ensures Valid(o)
  {
    Step(r, AllOpen, SocketOpened(ws)).next
  }

  /** The registry once peers 1, 2 and 3 have connected, in that order. */
  function ThreeConnected(): Registry {
    Opened(Opened(Opened(Empty, 1), 2), 3)
  }

  /** One `open` of a new peer appends it to the registry and starts its pinger. */
  lemma OpenAppends(r: Registry, ws: Handle)
    requires Valid(r) && ws !in r.clients
    ensures Opened(r, ws) == Registry(r.clients + [ws], r.pingers + {ws})
  {
  }

  /** Peers 1 and 2 connect in that order: the registry is 1, 2. */
  lemma TwoConnectedInOrder()
    ensures Opened(Opened(Empty, 1), 2) == Registry([1, 2], {1, 2})
  {
  }

  /** Peers 1, 2 and 3 connect in that order: the registry is 1, 2, 3. */
  lemma ThreeConnectedInOrder()
    ensures ThreeConnected() == Registry([1, 2, 3], {1, 2, 3})
  {
    TwoConnectedInOrder();
  }

  /** Peers 1, 2 and 3 connect; a frame from 1 reaches 2 and 3, byte for byte, and not 1. */
  lemma ThreePeersBroadcast(f: seq<bv8>)
    ensures ThreeConnected() == Registry([1, 2, 3], {1, 2, 3})
    ensures Recipients(Step(ThreeConnected(), AllOpen, SocketMessage(1, Binary(f))).sends) == {2, 3}
    ensures AllCarry(Step(ThreeConnected(), AllOpen, SocketMessage(1, Binary(f))).sends, Audio(f))
  {
    ThreeConnectedInOrder();
    var three := Registry([1, 2, 3], {1, 2, 3});
    assert Members(three.clients) == {1, 2, 3};
    var sends := BroadcastAudio(three.clients, AllOpen, f, 1);
    assert Step(three, AllOpen, SocketMessage(1, Binary(f))).sends == sends;
    assert Recipients(sends) == {2, 3};
  }

  /** Closing peer 2 of the registry 1, 2, 3 leaves 1 and 3, and a frame from 1 then
      reaches 3 only. */
  lemma CloseMiddlePeer(f: seq<bv8>)
    ensures Step(Registry([1, 2, 3], {1, 2, 3}), AllOpen, SocketClosed(2)).next.clients == [1, 3]
    ensures Recipients(Step(Step(Registry([1, 2, 3], {1, 2, 3}), AllOpen, SocketClosed(2)).next, AllOpen, SocketMessage(1, Binary(f))).sends) == {3}
  {
    MiddleClosed();
    OneReachesThree(f);
  }

  /** Closing peer 2 of the registry 1, 2, 3 leaves the registry 1, 3. */
  lemma MiddleClosed()
    ensures Step(Registry([1, 2, 3], {1, 2, 3}), AllOpen, SocketClosed(2)).next == Registry([1, 3], {1, 3})
  {
  }

  /** In the registry 1, 3 a frame from 1 reaches 3 only. */
  lemma OneReachesThree(f: seq<bv8>)
    ensures Recipients(Step(Registry([1, 3], {1, 3}), AllOpen, SocketMessage(1, Binary(f))).sends) == {3}
  {
  }

  /** After peer 2 closes, the registry is 1 and 3, and a frame from 1 reaches 3 only. */
  lemma ThreePeersAfterClose(f: seq<bv8>)
    ensures Step(ThreeConnected(), AllOpen, SocketClosed(2)).next.clients == [1, 3]
    ensures Recipients(Step(Step(ThreeConnected(), AllOpen, SocketClosed(2)).next, AllOpen, SocketMessage(1, Binary(f))).sends) == {3}
  {
    ThreePeersBroadcast(f);
    CloseMiddlePeer(f);
  }
}

=== FILE: service_worker.dfy ===
/** The service worker of service-worker.js: the `install` handler that fills the
    `CACHE_NAME` cache, the `activate` handler that deletes every other cache, and the
    `fetch` handler's fallback chain (navigation preload, then network, then cache,
    then the offline page, then the original error).

    Cache storage is a map from cache name to cache, and a cache maps a request URL to
    its stored response. Network fetches and the preload response are abstract
    outcomes given to the handlers. */
module ServiceWorker {
  import opened Wrappers

  /** `CACHE_NAME`. */
  const CacheName: string := "pwa-workshop-v1"

  /** `OFFLINE_URL` ('offline.html'), resolved against the worker's root scope. */
  const OfflineUrl: string := "/offline.html"

  /** `ASSETS_TO_CACHE`. */
  const AssetsToCache: seq<string> := [
    "/", "/index.html", "/sender.html", "/offline.html", "/css/style.css",
    "/css/preview.css", "/js/main.js", "/js/preview.js", "/manifest.json",
    "/images/logo.svg", "/images/maskable.svg", "/images/paper.svg",
    "/images/mode_night_gm_grey_24dp.svg", "/images/wb_sunny_gm_grey_24dp.svg",
    "/images/icons/logo-48.png", "/images/icons/logo-72.png", "/images/icons/logo-96.png",
    "/images/icons/logo-128.png", "/images/icons/logo-192.png", "/images/icons/logo-384.png",
    "/images/icons/logo-512.png", "/images/icons/maskable-1024.png"]

  /** `request.mode`. */
  datatype Mode = Navigate | SameOrigin | NoCors | Cors

  /** `verb` is `request.method`. */
  datatype Request = Request(url: string, verb: string, mode: Mode)

  datatype Response = Response(status: nat, contentType: string, body: string)

  /** A thrown or rejected value, opaque to the worker. */
  datatype Failure = Failure(reason: string)

  /** `await event.preloadResponse`: undefined, a response, or a rejection. */
  datatype Preload = NoPreload | Preloaded(response: Response) | PreloadFailed(failure: Failure)

  /** `await fetch(…)`: a response (of any status) or a rejection. */
  datatype NetResult = Fetched(response: Response) | NetFailed(failure: Failure)

  /** What `event.respondWith` receives: a response, or the promise rejects. */
  datatype Reply = Respond(response: Response) | Reject(failure: Failure)

  type Cache = map<string, Response>

  type Storage = map<string, Cache>

  /** What a handler consulted, in order. */
  datatype Consult = Network | CacheMatch(key: string) | CachePut(key: string)

  datatype Handled = Handled(storage: Storage, reply: Reply, trace: seq<Consult>)

  datatype Installed = Installed(storage: Storage, ok: bool)

  /** `caches.open(CACHE_NAME)`, which creates the cache when it does not exist. */
  function OpenCache(st: Storage): (st': Storage)
    ensures CacheName in st'
    ensures st'.Keys == st.Keys + {CacheName}
    ensures forall k :: k in st ==> st'[k] == st[k]
    ensures CacheName !in st ==> st'[CacheName] == map[]
  {
    if CacheName in st then st else st[CacheName := map[]]
  }

  /** `cache.match(request)`: by URL, and a request whose method is not GET never
      matches. */
  function Match(c: Cache, req: Request): (m: Option<Response>)
    ensures m.Some? <==> req.verb == "GET" && req.url in c
    ensures m.Some? ==> m.value == c[req.url]
  {
    if req.verb == "GET" && req.url in c then Some(c[req.url]) else None
  }

  /** The `catch` branch of the fetch handler: the cached match, else the cached offline
      page for a navigation, else the original failure. */
  function Fallback(st: Storage, req: Request, failure: Failure, trace: seq<Consult>): (h: Handled)
    ensures h.storage == OpenCache(st)
    ensures Match(OpenCache(st)[CacheName], req).Some? ==>
      h.reply == Respond(Match(OpenCache(st)[CacheName], req).value)
    ensures Match(OpenCache(st)[CacheName], req).None? && req.mode == Navigate && OfflineUrl in OpenCache(st)[CacheName] ==>
      h.reply == Respond(OpenCache(st)[CacheName][OfflineUrl])
    ensures h.reply.Reject? <==>
      Match(OpenCache(st)[CacheName], req).None? && (req.mode != Navigate || OfflineUrl !in OpenCache(st)[CacheName])
    ensures h.reply.Reject? ==> h.reply.failure == failure
    ensures |h.trace| > |trace| && h.trace[..|trace|] == trace && h.trace[|trace|] == CacheMatch(req.url)
  {
    var st' := OpenCache(st);
    var c := st'[CacheName];
    match Match(c, req)
    case Some(r) => Handled(st', Respond(r), trace + [CacheMatch(req.url)])
    case None =>
      if req.mode == Navigate then
        var trace' := trace + [CacheMatch(req.url), CacheMatch(OfflineUrl)];
        if OfflineUrl in c then Handled(st', Respond(c[OfflineUrl]), trace')
        else Handled(st', Reject(failure), trace')
      else Handled(st', Reject(failure), trace + [CacheMatch(req.url)])
  }

  /** The `fetch` handler. */
  function HandleFetch(st: Storage, req: Request, preload: Preload, net: NetResult): (h: Handled)
    ensures preload.Preloaded? ==> h == Handled(st, Respond(preload.response), [])
    ensures (Network in h.trace) <==> preload.NoPreload?
    ensures preload.NoPreload? && net.Fetched? ==> h.reply == Respond(net.response)
    ensures preload.NoPreload? && net.Fetched? ==> (CachePut(req.url) in h.trace <==> req.verb == "GET")
    ensures preload.NoPreload? && net.Fetched? && req.verb == "GET" ==>
      h.storage == OpenCache(st)[CacheName := OpenCache(st)[CacheName][req.url := net.response]]
    ensures preload.NoPreload? && net.Fetched? && req.verb != "GET" ==> h.storage == st
    ensures preload.PreloadFailed? ==> h == Fallback(st, req, preload.failure, [])
    ensures preload.NoPreload? && net.NetFailed? ==> h == Fallback(st, req, net.failure, [Network])
  {
    match preload
    case Preloaded(r) => Handled(st, Respond(r), [])
    case PreloadFailed(e) => Fallback(st, req, e, [])
    case NoPreload =>
      match net
      case Fetched(r) =>
        if req.verb == "GET" then
          var st' := OpenCache(st);
          Handled(st'[CacheName := st'[CacheName][req.url := r]], Respond(r), [Network, CachePut(req.url)])
        else
          Handled(st, Respond(r), [Network])
      case NetFailed(e) => Fallback(st, req, e, [Network])
  }

  /** Reference order of the fetch handler: the first candidate present wins. */
  function FirstAvailable(candidates: seq<Option<Response>>): Option<Response>
  {
    if |candidates| == 0 then None
    else if candidates[0].Some? then candidates[0]
    else FirstAvailable(candidates[1..])
  }

  /** The four candidates in priority order: the preload response, the network
      response (only asked for when there is no preload, successful or failed), the
      cached match, and the cached offline page for a navigation. */
  function Candidates(st: Storage, req: Request, preload: Preload, net: NetResult): seq<Option<Response>>
  {
    var c := OpenCache(st)[CacheName];
    [ if preload.Preloaded? then Some(preload.response) else None,
      if preload.NoPreload? && net.Fetched? then Some(net.response) else None,
      Match(c, req),
      if req.mode == Navigate && OfflineUrl in c then Some(c[OfflineUrl]) else None ]
  }

  /** The error the handler rethrows: the preload's rejection, else the network's. */
  function Thrown(preload: Preload, net: NetResult): Failure
  {
    if preload.PreloadFailed? then preload.failure
    else if net.NetFailed? then net.failure
    else Failure("")
  }

  lemma {:induction false} FirstOfFour(a: Option<Response>, b: Option<Response>, c: Option<Response>, d: Option<Response>)
    ensures FirstAvailable([a, b, c, d]) ==
      if a.Some? then a else if b.Some? then b else if c.Some? then c else d
  {
    var cs := [a, b, c, d];
    assert cs[1..] == [b, c, d] && cs[1..][1..] == [c, d] && cs[1..][1..][1..] == [d];
    assert [d][1..] == [];
    assert FirstAvailable([d]) == d;
    assert FirstAvailable([c, d]) == if c.Some? then c else d;
    assert FirstAvailable([b, c, d]) == if b.Some? then b else if c.Some? then c else d;
  }

  /** The handler answers with the first available candidate, and rejects with the
      original error exactly when none is available. */
  lemma {:induction false} FetchFollowsPriority(st: Storage, req: Request, preload: Preload, net: NetResult)
    ensures HandleFetch(st, req, preload, net).reply ==
      match FirstAvailable(Candidates(st, req, preload, net))
      case Some(r) => Respond(r)
      case None => Reject(Thrown(preload, net))
  {
    var cs := Candidates(st, req, preload, net);
    FirstOfFour(cs[0], cs[1], cs[2], cs[3]);
    assert cs == [cs[0], cs[1], cs[2], cs[3]];
  }

  /** `cache.addAll(ASSETS_TO_CACHE)`: all-or-nothing; it fails when any fetch fails,
      answers with a status outside 200–299, or answers 206 (a partial response is
      never stored). */
  predicate ResponseOk(n: NetResult) {
    n.Fetched? && 200 <= n.response.status <= 299 && n.response.status != 206
  }

  function AddAll(c: Cache, fetchAsset: string -> NetResult): (r: Option<Cache>)
    ensures r.Some? <==> forall a :: a in AssetsToCache ==> ResponseOk(fetchAsset(a))
    ensures r.Some? ==> forall a :: a in AssetsToCache ==> a in r.value && r.value[a] == fetchAsset(a).response
    ensures r.Some? ==> forall k :: k in c && k !in AssetsToCache ==> k in r.value && r.value[k] == c[k]
    ensures r.Some? ==> forall k :: k in r.value ==> k in c || k in AssetsToCache
  {
    if forall a :: a in AssetsToCache ==> ResponseOk(fetchAsset(a)) then
      Some(c + map a | a in AssetsToCache :: fetchAsset(a).response)
    else
      None
  }

  /** The re-stored offline page, as intended: the cached page's body, served as HTML.
      An absent page gives an empty body, as `new Response(undefined)` does. */
  function OfflineWrap(cached: Option<Response>): (r: Response)
    ensures r.status == 200 && r.contentType == "text/html"
    ensures cached.Some? ==> r.body == cached.value.body
  {
    Response(200, "text/html", if cached.Some? then cached.value.body else "")
  }

  /** The re-stored offline page as the source builds it: `new Response(response, …)`
      receives a Response object where it expects a body, and a body that is not a
      stream, blob, buffer, form or string is converted to a string, so the stored body
      is the text "[object Response]". */
  function OfflineWrapAsWritten(cached: Option<Response>): (r: Response)
    ensures r.status == 200 && r.contentType == "text/html"
    ensures cached.Some? ==> r.body == "[object Response]"
  {
    Response(200, "text/html", if cached.Some? then "[object Response]" else "")
  }

  /** The offline page re-stored by `install`, as written or as intended. */
  function Restore(cached: Option<Response>, asWritten: bool): Response {
    if asWritten then OfflineWrapAsWritten(cached) else OfflineWrap(cached)
  }

  /** The `install` handler, with the offline page re-stored as written or as intended. */
  function InstallWith(st: Storage, fetchAsset: string -> NetResult, asWritten: bool): (i: Installed)
    ensures i.ok <==> forall a :: a in AssetsToCache ==> ResponseOk(fetchAsset(a))
    ensures !i.ok ==> i.storage == OpenCache(st)
    ensures CacheName in i.storage
    ensures i.storage.Keys == st.Keys + {CacheName}
    ensures forall k :: k in st && k != CacheName ==> i.storage[k] == st[k]
    ensures i.ok ==> forall a :: a in AssetsToCache ==> a in i.storage[CacheName]
    ensures i.ok ==> forall a :: a in AssetsToCache && a != OfflineUrl ==> i.storage[CacheName][a] == fetchAsset(a).response
    ensures i.ok ==> OfflineUrl in i.storage[CacheName]
    ensures i.ok ==> i.storage[CacheName][OfflineUrl] == Restore(Some(fetchAsset(OfflineUrl).response), asWritten)
  {
    assert OfflineUrl == AssetsToCache[3];
    var st' := OpenCache(st);
    match AddAll(st'[CacheName], fetchAsset)
    case None => Installed(st', false)
    case Some(c) =>
      Installed(st'[CacheName := c[OfflineUrl := Restore(Some(c[OfflineUrl]), asWritten)]], true)
  }

  /** The `install` handler with the offline page re-stored as intended: every asset is
      cached under `CACHE_NAME`, the offline page keeps its body and is served as HTML. */
  function Install(st: Storage, fetchAsset: string -> NetResult): (i: Installed)
    ensures i.ok <==> forall a :: a in AssetsToCache ==> ResponseOk(fetchAsset(a))
    ensures !i.ok ==> i.storage == OpenCache(st)
    ensures CacheName in i.storage
    ensures forall k :: k in st && k != CacheName ==> k in i.storage && i.storage[k] == st[k]
    ensures i.ok ==> forall a :: a in AssetsToCache ==> a in i.storage[CacheName]
    ensures i.ok ==> forall a :: a in AssetsToCache && a != OfflineUrl ==> i.storage[CacheName][a] == fetchAsset(a).response
    ensures i.ok ==> OfflineUrl in i.storage[CacheName]
    ensures i.ok ==> i.storage[CacheName][OfflineUrl].body == fetchAsset(OfflineUrl).response.body
    ensures i.ok ==> i.storage[CacheName][OfflineUrl].contentType == "text/html"
  {
    InstallWith(st, fetchAsset, false)
  }

  /** The `install` handler exactly as written. */
  function InstallAsWritten(st: Storage, fetchAsset: string -> NetResult): (i: Installed)
    ensures CacheName in i.storage
    ensures i.ok ==> OfflineUrl in i.storage[CacheName]
    ensures i.ok ==> i.storage[CacheName][OfflineUrl].body == "[object Response]"
  {
    InstallWith(st, fetchAsset, true)
  }

  /** Every asset served with status 200 and the same HTML page. */
  function ServeSamplePage(url: string): NetResult {
    Fetched(Response(200, "text/html", "<h1>You are offline</h1>"))
  }

  /** Installed as written, the offline page that the server delivered is replaced by
      the text "[object Response]"; installed as intended, it is kept. */
  lemma InstallAsWrittenLosesOfflinePage()
    ensures InstallAsWritten(map[], ServeSamplePage).ok
    ensures InstallAsWritten(map[], ServeSamplePage).storage[CacheName][OfflineUrl].body != ServeSamplePage(OfflineUrl).response.body
    ensures Install(map[], ServeSamplePage).storage[CacheName][OfflineUrl].body == ServeSamplePage(OfflineUrl).response.body
  {
    assert forall a :: a in AssetsToCache ==> ResponseOk(ServeSamplePage(a));
  }

  /** The `activate` handler's cleanup: every cache name other than `CACHE_NAME` is
      deleted, in whatever order `caches.keys()` lists them. */
  method Activate(st: Storage) returns (after: Storage)
    ensures after.Keys == st.Keys * {CacheName}
    ensures forall k :: k in after ==> after[k] == st[k]
  {
    after := st;
    var keys := st.Keys;
    while keys != {}
      invariant keys <= st.Keys
      invariant after.Keys == keys + (st.Keys * {CacheName})
      invariant forall k :: k in after ==> k in st && after[k] == st[k]
      decreases keys
    {
      var k :| k in keys;
      if k != CacheName {
        after := after - {k};
      }
      keys := keys - {k};
    }
  }

  /** Activating twice deletes nothing more, and keeps `CACHE_NAME` with its contents. */
  method ActivateTwice(st: Storage) returns (once: Storage, twice: Storage)
    ensures twice == once
    ensures CacheName in st ==> CacheName in twice && twice[CacheName] == st[CacheName]
  {
    once := Activate(st);
    twice := Activate(once);
  }
}

=== FILE: wrappers.dfy ===
/** The optional-value type shared by every module. */
module Wrappers {

  /** A value that may be absent: JavaScript's `null`/`undefined` for one field. */
  datatype Option<+T> = None | Some(value: T)
}
